=== FILE: README.md ===
# itty-fetcher, modelled in Dafny

itty-fetcher is a small HTTP client over the platform's `fetch`. `fetcher(overrides)` returns a client.
Reading `base` or `autoParse` on the client gives the setting. Reading a member every object inherits from `Object.prototype` (`toString`, `constructor`, ...) gives that member. Reading any other property gives a verb function, so `api.get(url, payload, fetchOptions)` issues a GET and `api.foo(...)` issues a FOO.
A verb call does three things:
- it upper-cases the verb;
- it parses `base + url`, and for GET turns an object or iterable payload into the query string;
- it sends `{ method, ...fetchOptions, headers, body }` with a default JSON content type, then resolves the response as the raw `Response`, parsed JSON, parsed text or an error.

The model is a set of pure functions over immutable datatypes:

- `Wrappers` (wrappers.dfy) holds `Option` and `Result`.
- `JsText` (js_text.dfy) holds the two string primitives the client applies itself: `toUpperCase` on the verb and `includes` on the content type.
- `FormUrlEncoded` (form_urlencoded.dfy) holds the query-string serializer that `URLSearchParams.prototype.toString` applies (section 5.2 of the WHATWG URL Standard). Its byte serializer is left abstract. A structural splitter serves as its inverse.
- `Fetchy` (fetchy.dfy) builds the request and resolves the response.
- `Fetcher` (fetcher.dfy) merges the configuration and contains the Proxy `get` trap, written as `Lookup`. It also holds the lemmas about whole verb calls.

Platform primitives are not defined in the model. They arrive as fields of a `Fetchy.Platform` value over an abstract type `J` of JavaScript values:
- whether `new URL(text)` accepts a text;
- `String(v)`;
- `JSON.stringify` of a defined payload, which may give no text (for a function, or an object whose `toJSON` returns `undefined`);
- the form-urlencoded byte serializer;
- whether an iterated item is an iterable object of exactly two items, and the string conversions of the two.

Points where the code's behaviour may be unexpected:

- `JSON.stringify(undefined)` is `undefined`, so a call without a payload sends no body. It does not send the text `"undefined"`.
- For a GET with an object or iterable payload, the query *replaces* the query of the parsed `base + url`, because the code assigns `resolvedURL.search`. The model records the parsed text together with the replacement query.
- The code has no request-transform hook and no FormData pass-through. It merges header names by exact spelling only. It has no text fallback when the response carries no content type: `null.includes` throws, which `Fetchy.ContentTypeMissing` models.
- Caller headers given as a `Headers` object are dropped, because spreading it copies no entries. `Fetcher.HeadersInstanceIsDropped` states this.
- The Proxy trap returns `obj[key]` whenever that is not `undefined`. This is also true of the members every object inherits from `Object.prototype` (`toString`, `constructor`, ...). Those keys read as `Fetcher.Inherited`, not as verbs.

## Model

| member | source | states |
|---|---|---|
| `Fetcher.Configure` | src/itty-fetcher.ts:73-77 | each supplied override replaces its default; an absent one leaves `base = ""` and `autoParse = true` |
| `Fetcher.ConfigReadBack` | src/itty-fetcher.ts:73-80 | reading `base` / `autoParse` on a client gives the override when one was supplied, otherwise the default |
| `Fetcher.Lookup` | src/itty-fetcher.ts:79-80 | `base` and `autoParse` give their stored values; inherited `Object.prototype` members give themselves; every other key, and only those, gives a verb named by the key |
| `Fetcher.EveryOtherKeyIsVerb` | src/itty-fetcher.ts:79-80 | on any client, every key other than the two settings and the inherited members reads as the verb of that name |
| `Fetcher.CallRequest` | src/itty-fetcher.ts:37-57 | a verb call fails exactly when the client's `base` plus `url` does not parse or a GET iterable payload holds a non-pair; otherwise it parses that text and sends the upper-cased key as method unless the fetch options name one |
| `Fetcher.CallOutcome` | src/itty-fetcher.ts:58-68 | a failed status rejects with its status text; a success resolves with the raw response exactly when the client's `autoParse` is off; with it on, as JSON exactly when the content type contains `json`, as text when it does not, and as a TypeError when there is none |
| `Fetcher.VerbSeesClientSettings` | src/itty-fetcher.ts:71-80 | a verb function uses the same `base` and `autoParse` that reading those keys on the client returns |
| `JsText.Upper` | src/itty-fetcher.ts:39 | the sent verb keeps the key's length, contains no lower-case letter, matches the key letter for letter up to case, and keeps every non-letter |
| `JsText.UpperIdempotent` | src/itty-fetcher.ts:39 | upper-casing an already upper-cased verb changes nothing |
| `JsText.UpperEqIff` | src/itty-fetcher.ts:39 | two keys give the same verb exactly when they are equal up to ASCII case |
| `Fetchy.IsGet` | src/itty-fetcher.ts:39-43 | the query rule applies exactly to keys spelling `get` in any letter case |
| `Fetchy.IsQueryPayload` | src/itty-fetcher.ts:43 | the query rule applies exactly to payloads whose `typeof` is `object`, other than `null` |
| `JsText.Includes` | src/itty-fetcher.ts:64 | the scan answers true exactly when the needle occurs somewhere in the text |
| `FormUrlEncoded.Serialize` | src/itty-fetcher.ts:44-46 | the query text is empty exactly when there are no pairs |
| `FormUrlEncoded.SerializeRoundTrip` | src/itty-fetcher.ts:44-46 | the serialized query carries exactly the given name/value pairs, in order: splitting at `&` and then at the first `=` recovers them |
| `Fetchy.SearchPairs` | src/itty-fetcher.ts:44-46 | an object payload gives its fields with stringified values, in property order; an iterable gives the pairs its items hold, and the constructor throws exactly when an item is not a pair |
| `Fetchy.Body` | src/itty-fetcher.ts:57 | the body is absent exactly for an `undefined` payload and for a payload `JSON.stringify` gives no text for, and otherwise is the payload's JSON text |
| `Fetchy.CallerHeaders` | src/itty-fetcher.ts:55 | spreading the caller's headers copies a plain record's entries, and nothing from a `Headers` object or from absent headers |
| `Fetchy.MergeHeaders` | src/itty-fetcher.ts:53-56 | the sent headers are the copied caller headers, unchanged, plus `Content-Type: application/json` unless the caller named that exact header; nothing else |
| `Fetchy.AssembleInit` | src/itty-fetcher.ts:50-57 | the init has the caller's fields plus `method`, `headers` and `body`; a caller `method` wins over the generated one; `headers` and `body` are always the generated ones; every other caller field passes through unchanged |
| `Fetchy.BuildRequest` | src/itty-fetcher.ts:37-57 | the call throws exactly when `base + url` does not parse or a GET iterable payload holds a non-pair; otherwise it parses `base + url`; exactly for GET with an object or iterable payload it replaces the query with the serialized pairs of that payload and sends no body |
| `Fetchy.Resolve` | src/itty-fetcher.ts:58-68 | a failed status rejects with its status text whatever the settings; a success gives the raw response exactly when auto-parse is off; otherwise JSON exactly when the content type contains `json`, text when it does not, and a TypeError when there is no content type |
| `Fetcher.MethodAndUrl` | src/itty-fetcher.ts:37-52 | whenever the call does not throw, the URL text is `base + url` and the method sent is the upper-cased key unless the fetch options name a method, which then wins |
| `Fetcher.GetObjectBecomesQuery` | src/itty-fetcher.ts:43-48 | a GET with an object payload sends no body and a query that splits back into the object's fields with stringified values, in property order |
| `Fetcher.GetIterableBecomesQuery` | src/itty-fetcher.ts:43-48 | a GET with an iterable payload of pairs sends no body and a query that splits back into those pairs, in iteration order |
| `Fetcher.QueryFollowsVerbNotOption` | src/itty-fetcher.ts:43-52 | the query rule follows the verb the call was made through; a `method: 'POST'` option still sends a query and no body, only under POST |
| `Fetcher.BodyCarriesPayload` | src/itty-fetcher.ts:43-57 | outside the GET-with-object-or-iterable case the query is untouched; the body is absent for `undefined` and for payloads JSON cannot represent, and otherwise is the payload's JSON text |
| `Fetcher.PostedArrayParsesBack` | src/itty-fetcher.spec.ts:117-128 | a POSTed array arrives as a body that parses back to the array, for any array whose JSON text parses back to it |
| `Fetcher.OptionsCannotReplaceHeadersOrBody` | src/itty-fetcher.ts:50-57 | fetch options with the same header record lead to the same URL, headers and body, whatever other fields they carry (including their own `body`) |
| `Fetcher.HeaderNamesAreCaseSensitive` | src/itty-fetcher.ts:53-56 | a caller's `content-type` does not replace the default `Content-Type`; both are sent |
| `Fetcher.HeadersInstanceIsDropped` | src/itty-fetcher.ts:53-56 | headers given as a `Headers` object are lost: only the default content type is sent, whatever entries the object holds |
| `Fetcher.AutoParseOffKeepsResponse` | src/itty-fetcher.ts:59-60 | with `autoParse: false`, every successful call resolves with the response itself |
| `Fetcher.FailureIgnoresSettings` | src/itty-fetcher.ts:59-67 | a failed status rejects with its status text on any client, whatever the content type |
| `Fetcher.BasePrefixExample` | src/itty-fetcher.spec.ts:49-55 | `fetcher({ base: 'https://foo.bar/' }).get('json')` parses `https://foo.bar/json`, sends GET and has no body |
| `Fetcher.ContentTypeExamples` | src/itty-fetcher.ts:62-67 | `application/json` parses as JSON; `text/plain` and `application/JSON` parse as text; a failed `Bad Request` rejects with `Bad Request` |

## Left out

- The `fetch` call itself, the promise chain and network failures are asynchronous I/O. The model stops at the arguments handed to `fetch` (`Fetchy.Request`) and at the choice of how its response settles (`Fetchy.Outcome`).
- URL parsing and serialisation are not modelled. `new URL` is the abstract `urlParses`. The string `resolvedURL.toString()` that results is not computed. The query assigned to `search` is kept alongside the parsed text.
- The byte serializer of section 5.2 of the WHATWG URL Standard (percent-encoding, space to `+`) is the abstract `escape`. The round trip assumes only that it encodes `&` and `=`.
- `JSON.stringify`, `String(v)`, `response.json()` and `response.text()` are abstract. JSON parsing appears only as a hypothesis about one array in `Fetcher.PostedArrayParsesBack`. `JSON.stringify` throwing on cyclic or BigInt values is not modelled.
- JsText.Upper: covers ASCII letters only. The full Unicode case mapping of `toUpperCase` is not modelled; it can change a string's length, for example `ß` becomes `SS`.
- JsText.UpperEqIff: the if-and-only-if is over ASCII case only. Under the full Unicode mapping of `toUpperCase` more keys collide, for example `ß` and `ss` both become `SS`.
- Fetchy.CallerHeaders: requires the caller's `headers` to be a plain record, a `Headers` object or `undefined`; anything else (an array of pairs, a string, another object) is not modelled. Spreading an array gives index keys whose values are the pairs themselves, and spreading a string gives its characters under index keys, which a header record cannot hold. The same requirement (`Fetchy.HeadersSpreadable`) carries over to `Fetchy.AssembleInit`, `Fetchy.BuildRequest`, `Fetcher.CallRequest` and the lemmas about verb calls.
- Fetchy.SearchPairs: promises a query for every object payload. It does not model `URLSearchParams` throwing on a Symbol-valued field or a Symbol key, because payload field values are abstract and field names are strings.
- Header order is not modelled; headers and init are maps. An object payload's fields are taken to be listed in property order already, and JavaScript's rule that integer-like keys come first is not applied.
- An override that is present but `undefined` is not modelled. An absent override is `None`.
- `fetch` rejects a GET request that carries a body, for example a GET with a string payload. That is platform behaviour and is not modelled.
- Writes to the client are not modelled: the Proxy has no `set` or `deleteProperty` trap, so assignments and deletes change the object `Lookup` reads (after `api.base = ...` later calls use the new base, after `api.foo = 1` the key `foo` is no longer a verb, after `delete api.base` the key `base` is a verb). A verb function keeps the settings copied when it was read. `Fetcher.Config` is the client as created, and `Fetcher.Lookup` and `Fetcher.VerbSeesClientSettings` describe a client nobody has written to.
- Symbol-keyed property reads on the client, the `Proxy` mechanism itself and the TypeScript type parameter `<T>` have no counterpart in the model.

=== FILE: fetcher.dfy ===
/**
 * `fetcher`: merges the caller's overrides into the defaults, and answers
 * every property read on the client through one lookup, which either returns
 * a stored setting or binds a verb function for `fetchy`.
 */
module Fetcher {
  import opened Wrappers
  import JsText
  import FormUrlEncoded
  import opened Fetchy

  /** The argument of `fetcher(...)`; `fetcher()` is `Overrides(None, None)`. */
  datatype Overrides = Overrides(base: Option<string>, autoParse: Option<bool>)

  /** The object behind the client: `{ base: '', autoParse: true, ...overrides }`. */
  datatype Config = Config(base: string, autoParse: bool)

  const DefaultBase := ""
  const DefaultAutoParse := true

  /** A supplied override replaces its default; an absent one leaves the default. */
  function Configure(o: Overrides): (c: Config)
    ensures o.base.Some? ==> c.base == o.base.value
    ensures o.base.None? ==> c.base == DefaultBase
    ensures o.autoParse.Some? ==> c.autoParse == o.autoParse.value
    ensures o.autoParse.None? ==> c.autoParse == DefaultAutoParse
  {
    Config(o.base.GetOr(DefaultBase), o.autoParse.GetOr(DefaultAutoParse))
  }

  /** The members every plain object inherits from `Object.prototype`; reading one is never `undefined`. */
  const InheritedKeys: set<string> := {
    "constructor", "hasOwnProperty", "isPrototypeOf", "propertyIsEnumerable",
    "toLocaleString", "toString", "valueOf", "__proto__",
    "__defineGetter__", "__defineSetter__", "__lookupGetter__", "__lookupSetter__"
  }

  datatype Setting = BaseText(text: string) | AutoParseFlag(flag: bool)

  /** What reading a property of the client yields. */
  datatype Property =
    | ConfigVal(setting: Setting)  // a stored setting
    | Inherited(name: string)      // the `Object.prototype` member of that name
    | Verb(verb: string)           // `fetchy({ method: verb, ...config })`

  /**
   * The Proxy `get` trap: a key whose value on the config object is defined
   * yields that value; any other key yields a verb function named by the key.
   */
  function Lookup(c: Config, key: string): (p: Property)
    ensures key == "base" ==> p == ConfigVal(BaseText(c.base))
    ensures key == "autoParse" ==> p == ConfigVal(AutoParseFlag(c.autoParse))
    ensures p.Inherited? <==> key in InheritedKeys
    ensures p.Inherited? ==> p.name == key
    ensures p.Verb? <==> key != "base" && key != "autoParse" && key !in InheritedKeys
    ensures p.Verb? ==> p.verb == key
  {
    if key == "base" then ConfigVal(BaseText(c.base))
    else if key == "autoParse" then ConfigVal(AutoParseFlag(c.autoParse))
    else if key in InheritedKeys then Inherited(key)
    else Verb(key)
  }

  /**
   * `client[key](url, payload, fetchOptions)` up to the `fetch` call: the
   * verb function is `fetchy({ method: key, ...config })`, so it parses the
   * client's `base` followed by `url` and sends the upper-cased key as method
   * unless the fetch options name one.
   */
  function CallRequest<J>(pf: Platform<J>, c: Config, key: string, url: string,
                          payload: Payload<J>, fetchOptions: Init<J>): (r: Result<Request<J>, BuildError>)
    requires Lookup(c, key).Verb?
    requires HeadersSpreadable(fetchOptions)
    ensures r.Failure? <==>
      !pf.urlParses(c.base + url) || (IsGet(key) && payload.Iterable? && !AllPairs(pf, payload.items))
    ensures r.Success? ==> r.value.target.text == c.base + url
    ensures r.Success? ==>
      && "method" in r.value.init
      && r.value.init["method"] == (if "method" in fetchOptions then fetchOptions["method"] else Str(JsText.Upper(key)))
  {
    BuildRequest(pf, FetchyOptions(key, c.base, c.autoParse), url, payload, fetchOptions)
  }

  /**
   * `client[key](...)` once `fetch` has answered with `resp`: a failed status
   * rejects with its text; a success gives the raw response exactly when the
   * client's `autoParse` is off, and is otherwise parsed by content type.
   */
  function CallOutcome(c: Config, key: string, resp: ResponseSummary): (o: Outcome)
    requires Lookup(c, key).Verb?
    ensures o.Fail? <==> !resp.ok
    ensures o.Fail? ==> o.message == resp.statusText
    ensures o == Raw <==> resp.ok && !c.autoParse
    ensures o == ContentTypeMissing <==> resp.ok && c.autoParse && resp.contentType.None?
    ensures o == ParseJson <==>
      resp.ok && c.autoParse && resp.contentType.Some? && JsText.Contains(resp.contentType.value, "json")
    ensures o == ParseText <==>
      resp.ok && c.autoParse && resp.contentType.Some? && !JsText.Contains(resp.contentType.value, "json")
  {
    Resolve(FetchyOptions(key, c.base, c.autoParse).autoParse, resp)
  }

  /** Reading `base` and `autoParse` back gives the override when supplied, else the default. */
  lemma ConfigReadBack(o: Overrides)
    ensures Lookup(Configure(o), "base") ==
      ConfigVal(BaseText(if o.base.Some? then o.base.value else ""))
    ensures Lookup(Configure(o), "autoParse") ==
      ConfigVal(AutoParseFlag(if o.autoParse.Some? then o.autoParse.value else true))
  {
  }

  /** Every key outside the two settings and the inherited members reads as a verb of that name. */
  lemma EveryOtherKeyIsVerb(o: Overrides, key: string)
    requires key != "base" && key != "autoParse" && key !in InheritedKeys
    ensures Lookup(Configure(o), key) == Verb(key)
  {
  }

  /**
   * A verb function works with the very settings the client reports: the
   * `base` read from the client prefixes the URL and the `autoParse` read
   * from it decides how every response resolves.
   */
  lemma VerbSeesClientSettings<J>(pf: Platform<J>, c: Config, key: string, url: string,
                                  payload: Payload<J>, fetchOptions: Init<J>, base: string, autoParse: bool)
    requires Lookup(c, key).Verb? && HeadersSpreadable(fetchOptions)
    requires Lookup(c, "base") == ConfigVal(BaseText(base))
    requires Lookup(c, "autoParse") == ConfigVal(AutoParseFlag(autoParse))
    requires pf.urlParses(base + url)
    requires !(IsGet(key) && payload.Iterable? && !AllPairs(pf, payload.items))
    ensures CallRequest(pf, c, key, url, payload, fetchOptions).Success?
    ensures CallRequest(pf, c, key, url, payload, fetchOptions).value.target.text == base + url
    ensures forall resp :: CallOutcome(c, key, resp) == Resolve(autoParse, resp)
  {
  }

  /**
   * The URL text parsed is `base + url`, and the method sent is the
   * upper-cased key unless the fetch options name a method, which then wins.
   */
  lemma MethodAndUrl<J>(pf: Platform<J>, c: Config, key: string, url: string,
                        payload: Payload<J>, fetchOptions: Init<J>)
    requires Lookup(c, key).Verb? && HeadersSpreadable(fetchOptions)
    requires pf.urlParses(c.base + url)
    requires !(IsGet(key) && payload.Iterable? && !AllPairs(pf, payload.items))
    ensures CallRequest(pf, c, key, url, payload, fetchOptions).Success?
    ensures CallRequest(pf, c, key, url, payload, fetchOptions).value.target.text == c.base + url
    ensures "method" !in fetchOptions ==>
      CallRequest(pf, c, key, url, payload, fetchOptions).value.init["method"] == Str(JsText.Upper(key))
    ensures "method" in fetchOptions ==>
      CallRequest(pf, c, key, url, payload, fetchOptions).value.init["method"] == fetchOptions["method"]
  {
  }

  /**
   * A GET call with an object payload sends that object as the query, field by
   * field in property order with stringified values, and sends no body.
   */
  lemma GetObjectBecomesQuery<J>(pf: Platform<J>, c: Config, key: string, url: string,
                                 fields: seq<(string, J)>, fetchOptions: Init<J>)
    requires Lookup(c, key).Verb? && HeadersSpreadable(fetchOptions)
    requires IsGet(key) && pf.urlParses(c.base + url)
    requires FormUrlEncoded.EscapesDelimiters(pf.escape)
    ensures var r := CallRequest(pf, c, key, url, Object(fields), fetchOptions);
      && r.Success?
      && r.value.init["body"] == Missing
      && r.value.target.search.Some?
      && FormUrlEncoded.SplitQuery(r.value.target.search.value)
         == FormUrlEncoded.Escaped(pf.escape, SearchPairs(pf, Object(fields)).value)
  {
    FormUrlEncoded.SerializeRoundTrip(pf.escape, SearchPairs(pf, Object(fields)).value);
  }

  /**
   * A GET call with an iterable payload whose items are all pairs sends those
   * pairs as the query, in iteration order, and sends no body.
   */
  lemma GetIterableBecomesQuery<J>(pf: Platform<J>, c: Config, key: string, url: string,
                                   items: seq<J>, fetchOptions: Init<J>)
    requires Lookup(c, key).Verb? && HeadersSpreadable(fetchOptions)
    requires IsGet(key) && pf.urlParses(c.base + url)
    requires AllPairs(pf, items)
    requires FormUrlEncoded.EscapesDelimiters(pf.escape)
    ensures var r := CallRequest(pf, c, key, url, Iterable(items), fetchOptions);
      && r.Success?
      && r.value.init["body"] == Missing
      && r.value.target.search.Some?
      && FormUrlEncoded.SplitQuery(r.value.target.search.value)
         == FormUrlEncoded.Escaped(pf.escape, seq(|items|, i requires 0 <= i < |items| => pf.asPair(items[i]).value))
  {
    var pairs := SearchPairs(pf, Iterable(items)).value;
    assert pairs == seq(|items|, i requires 0 <= i < |items| => pf.asPair(items[i]).value);
    FormUrlEncoded.SerializeRoundTrip(pf.escape, pairs);
  }

  /**
   * Whether a payload becomes the query depends on the verb the call was made
   * through, not on a `method` given in the fetch options.
   */
  lemma QueryFollowsVerbNotOption<J>(pf: Platform<J>, c: Config, url: string,
                                     fields: seq<(string, J)>, fetchOptions: Init<J>)
    requires HeadersSpreadable(fetchOptions) && pf.urlParses(c.base + url)
    requires "method" in fetchOptions && fetchOptions["method"] == Str("POST")
    ensures CallRequest(pf, c, "get", url, Object(fields), fetchOptions).Success?
    ensures CallRequest(pf, c, "get", url, Object(fields), fetchOptions).value.init["method"] == Str("POST")
    ensures CallRequest(pf, c, "get", url, Object(fields), fetchOptions).value.target.search.Some?
    ensures CallRequest(pf, c, "get", url, Object(fields), fetchOptions).value.init["body"] == Missing
  {
  }

  /**
   * Outside the GET-with-object-or-iterable case the query is untouched and the body is
   * the payload's JSON text; `undefined`, and a payload JSON cannot represent, send no body.
   */
  lemma BodyCarriesPayload<J>(pf: Platform<J>, c: Config, key: string,
                              url: string, payload: Payload<J>, fetchOptions: Init<J>)
    requires Lookup(c, key).Verb? && HeadersSpreadable(fetchOptions)
    requires pf.urlParses(c.base + url)
    requires !(IsGet(key) && IsQueryPayload(payload))
    ensures CallRequest(pf, c, key, url, payload, fetchOptions).Success?
    ensures CallRequest(pf, c, key, url, payload, fetchOptions).value.target.search.None?
    ensures payload.Undefined? || pf.stringify(payload).None? ==>
      CallRequest(pf, c, key, url, payload, fetchOptions).value.init["body"] == Missing
    ensures !payload.Undefined? && pf.stringify(payload).Some? ==>
      CallRequest(pf, c, key, url, payload, fetchOptions).value.init["body"] == Str(pf.stringify(payload).value)
  {
  }

  /**
   * An array posted as the payload arrives as a body that JSON parsing turns
   * back into the array, for any array whose JSON text parses back to it.
   */
  lemma PostedArrayParsesBack<J>(pf: Platform<J>, parse: string -> Payload<J>, c: Config,
                                 url: string, items: seq<J>, fetchOptions: Init<J>)
    requires HeadersSpreadable(fetchOptions) && pf.urlParses(c.base + url)
    requires pf.stringify(Iterable(items)).Some?
    requires parse(pf.stringify(Iterable(items)).value) == Iterable(items)
    ensures CallRequest(pf, c, "post", url, Iterable(items), fetchOptions).Success?
    ensures var body := CallRequest(pf, c, "post", url, Iterable(items), fetchOptions).value.init["body"];
      body.Str? && parse(body.s) == Iterable(items)
  {
  }

  /**
   * The fetch options cannot change the headers beyond the caller's header
   * record, nor the body, nor the URL: two calls whose options carry the same
   * header record send the same URL, headers and body.
   */
  lemma OptionsCannotReplaceHeadersOrBody<J>(pf: Platform<J>, c: Config, key: string, url: string,
                                             payload: Payload<J>, fo1: Init<J>, fo2: Init<J>)
    requires Lookup(c, key).Verb? && HeadersSpreadable(fo1) && HeadersSpreadable(fo2)
    requires CallerHeaders(fo1) == CallerHeaders(fo2)
    ensures CallRequest(pf, c, key, url, payload, fo1).Success? <==> CallRequest(pf, c, key, url, payload, fo2).Success?
    ensures CallRequest(pf, c, key, url, payload, fo1).Success? ==>
      var r1, r2 := CallRequest(pf, c, key, url, payload, fo1).value, CallRequest(pf, c, key, url, payload, fo2).value;
      r1.target == r2.target && r1.init["headers"] == r2.init["headers"] && r1.init["body"] == r2.init["body"]
  {
  }

  /**
   * Header names merge by exact spelling: a caller's `content-type` does not
   * replace the default `Content-Type`, and both are sent.
   */
  lemma HeaderNamesAreCaseSensitive(caller: map<string, string>, value: string)
    requires "content-type" in caller && caller["content-type"] == value
    requires ContentTypeHeader !in caller
    ensures MergeHeaders(caller)[ContentTypeHeader] == JsonMediaType
    ensures MergeHeaders(caller)["content-type"] == value
  {
  }

  /**
   * Headers given as a `Headers` object are lost: spreading it copies none of
   * its entries, so only the default content type is sent.
   */
  lemma HeadersInstanceIsDropped<J>(pf: Platform<J>, c: Config, key: string, url: string,
                                    payload: Payload<J>, entries: map<string, string>)
    requires Lookup(c, key).Verb?
    ensures var r := CallRequest(pf, c, key, url, payload, map["headers" := HeadersInstance(entries)]);
      r.Success? ==> r.value.init["headers"] == HeaderRecord(map[ContentTypeHeader := JsonMediaType])
  {
  }

  /** A client created with `autoParse: false` resolves every successful call with the response itself. */
  lemma AutoParseOffKeepsResponse(o: Overrides, key: string, resp: ResponseSummary)
    requires o.autoParse == Some(false)
    requires Lookup(Configure(o), key).Verb?
    requires resp.ok
    ensures CallOutcome(Configure(o), key, resp) == Raw
  {
  }

  /** A failed status rejects with its status text whatever the client's settings and the content type. */
  lemma FailureIgnoresSettings(o: Overrides, key: string, resp: ResponseSummary)
    requires Lookup(Configure(o), key).Verb?
    requires !resp.ok
    ensures CallOutcome(Configure(o), key, resp) == Fail(resp.statusText)
  {
  }

  /** `fetcher({ base: 'https://foo.bar/' }).get('json')` parses `https://foo.bar/json` and sends GET. */
  lemma BasePrefixExample<J>(pf: Platform<J>)
    requires pf.urlParses("https://foo.bar/json")
    ensures CallRequest(pf, Configure(Overrides(Some("https://foo.bar/"), None)), "get", "json", Undefined, map[]).Success?
    ensures var r := CallRequest(pf, Configure(Overrides(Some("https://foo.bar/"), None)), "get", "json", Undefined, map[]).value;
      r.target == Target("https://foo.bar/json", None) && r.init["method"] == Str("GET") && r.init["body"] == Missing
  {
    assert "https://foo.bar/" + "json" == "https://foo.bar/json";
    assert JsText.Upper("get") == "GET";
  }

  /** Sample content types: JSON is detected by substring, in lower case only. */
  lemma ContentTypeExamples()
    ensures Resolve(true, ResponseSummary(true, "OK", Some("application/json"))) == ParseJson
    ensures Resolve(true, ResponseSummary(true, "OK", Some("text/plain"))) == ParseText
    ensures Resolve(true, ResponseSummary(true, "OK", Some("application/JSON"))) == ParseText
    ensures Resolve(true, ResponseSummary(false, "Bad Request", Some("application/json"))) == Fail("Bad Request")
  {
    assert JsText.OccursAt("json", "application/json", 12);
    JsText.MissingFirstCharExcludes("text/plain", "json");
    JsText.MissingFirstCharExcludes("application/JSON", "json");
  }
}

=== FILE: fetchy.dfy ===
/**
 * `fetchy`: builds the request a verb call hands to `fetch`, and chooses how
 * the response it gets back is resolved.
 *
 * The platform primitives the code calls into (URL parsing, `String(v)`,
 * `JSON.stringify`, the form-urlencoded byte serializer, the iterable test of
 * `URLSearchParams`) are not defined here; they arrive as the fields of a
 * `Platform` value, over an abstract type `J` of JavaScript values.
 */
module Fetchy {
  import opened Wrappers
  import JsText
  import FormUrlEncoded

  /**
   * The payload argument, `string | number | object | undefined`, with `null`
   * told apart and objects split by whether `URLSearchParams` iterates them.
   */
  datatype Payload<J> =
    | Undefined
    | Null
    | Text(s: string)
    | Number(n: J)
    // a function object, which `typeof` reports as `function`
    | Callable(f: J)
    // an object without an iterator: its own enumerable properties, in property order
    | Object(fields: seq<(string, J)>)
    // an object with an iterator (an array, a `Map`, a `URLSearchParams`, ...): the items it yields
    | Iterable(items: seq<J>)

  /** The value of one field of a `RequestInit` object. */
  datatype InitValue<J> =
    | Missing  // `undefined`
    | Str(s: string)
    | HeaderRecord(h: map<string, string>)
    // a `Headers` object holding `entries`; it has no own enumerable properties
    | HeadersInstance(entries: map<string, string>)
    | Native(v: J)

  /** A `RequestInit` object: field name to value. Spreading objects is right-biased map union. */
  type Init<J> = map<string, InitValue<J>>

  datatype Platform<!J> = Platform(
    // `new URL(text)` accepts `text` rather than throwing
    urlParses: string -> bool,
    // `String(v)`, as `URLSearchParams` converts a record's values
    toStr: J -> string,
    // `v` is an iterable object of exactly two items, as each item of a sequence init
    // must be, and the string conversions of the two
    asPair: J -> Option<(string, string)>,
    // the byte serializer of the form-urlencoded serializer
    escape: string -> string,
    // `JSON.stringify` of a payload other than `undefined`: `None` where it returns
    // `undefined` (a function, or an object whose `toJSON` returns `undefined`)
    stringify: Payload<J> -> Option<string>)

  /** The options object `fetchy` is created with: `{ method, ...config }`. */
  datatype FetchyOptions = FetchyOptions(verb: string, base: string, autoParse: bool)

  /** The URL handed to `fetch`: `text` parsed, then its query replaced by `search` if present. */
  datatype Target = Target(text: string, search: Option<string>)

  /** The two arguments of the `fetch` call. */
  datatype Request<J> = Request(target: Target, init: Init<J>)

  /** The exceptions thrown while the request is built, before anything is sent. */
  datatype BuildError =
    | InvalidUrl(text: string)  // `new URL` rejects `base + url`
    | InvalidSearchInit         // `new URLSearchParams` rejects an iterated item that is not a pair

  const ContentTypeHeader := "Content-Type"
  const JsonMediaType := "application/json"

  /** `method === 'GET'` after upper-casing: exactly the spellings of `get` in any ASCII letter case. */
  predicate IsGet(verb: string)
    ensures IsGet(verb) <==>
      |verb| == 3 && JsText.CaseEq(verb[0], 'g') && JsText.CaseEq(verb[1], 'e') && JsText.CaseEq(verb[2], 't')
  {
    JsText.UpperEqIff(verb, "get");
    JsText.Upper(verb) == "GET"
  }

  /** JavaScript's `typeof` of a payload. */
  function TypeOf<J>(p: Payload<J>): string {
    match p
    case Undefined => "undefined"
    case Null => "object"
    case Text(_) => "string"
    case Number(_) => "number"
    case Callable(_) => "function"
    case Object(_) => "object"
    case Iterable(_) => "object"
  }

  /**
   * `payload && typeof payload === 'object'`: the only falsy value whose type
   * is `object` is `null`, and every other falsy value has another type.
   */
  predicate IsQueryPayload<J>(p: Payload<J>)
    ensures IsQueryPayload(p) <==> TypeOf(p) == "object" && !p.Null?
  {
    p.Object? || p.Iterable?
  }

  predicate AllPairs<J>(pf: Platform<J>, items: seq<J>) {
    forall i :: 0 <= i < |items| ==> pf.asPair(items[i]).Some?
  }

  /**
   * The name/value pairs `new URLSearchParams(payload)` holds: a record's
   * properties with their values stringified, or a sequence's pairs; `None`
   * when the constructor throws.
   */
  function SearchPairs<J>(pf: Platform<J>, p: Payload<J>): (r: Option<seq<FormUrlEncoded.Pair>>)
    requires IsQueryPayload(p)
    ensures r.None? <==> p.Iterable? && !AllPairs(pf, p.items)
    ensures p.Object? ==> r.Some? && |r.value| == |p.fields|
    ensures p.Object? ==>
      forall i :: 0 <= i < |p.fields| ==> r.value[i] == (p.fields[i].0, pf.toStr(p.fields[i].1))
    ensures r.Some? && p.Iterable? ==> |r.value| == |p.items|
    ensures r.Some? && p.Iterable? ==>
      forall i :: 0 <= i < |p.items| ==> Some(r.value[i]) == pf.asPair(p.items[i])
  {
    match p
    case Object(fields) =>
      Some(seq(|fields|, i requires 0 <= i < |fields| => (fields[i].0, pf.toStr(fields[i].1))))
    case Iterable(items) =>
      if AllPairs(pf, items) then
        Some(seq(|items|, i requires 0 <= i < |items| => pf.asPair(items[i]).value))
      else
        None
  }

  /**
   * `body: JSON.stringify(payload)`: absent for `undefined` and for every
   * payload JSON cannot represent, the JSON text otherwise.
   */
  function Body<J>(pf: Platform<J>, p: Payload<J>): (b: InitValue<J>)
    ensures b.Missing? <==> p.Undefined? || pf.stringify(p).None?
    ensures !b.Missing? ==> b == Str(pf.stringify(p).value)
  {
    if p.Undefined? then Missing
    else match pf.stringify(p)
      case None => Missing
      case Some(text) => Str(text)
  }

  /** `fetchOptions.headers`, if given, is a plain record or a `Headers` object. */
  predicate HeadersSpreadable<J>(fetchOptions: Init<J>) {
    "headers" in fetchOptions ==>
      || fetchOptions["headers"].HeaderRecord?
      || fetchOptions["headers"].HeadersInstance?
      || fetchOptions["headers"].Missing?
  }

  /**
   * `...fetchOptions?.headers`: the entries of a plain record; nothing from a
   * `Headers` object, which has no own enumerable properties, however many
   * entries it holds; nothing when no headers are given.
   */
  function CallerHeaders<J>(fetchOptions: Init<J>): (h: map<string, string>)
    requires HeadersSpreadable(fetchOptions)
    ensures "headers" in fetchOptions && fetchOptions["headers"].HeaderRecord? ==> h == fetchOptions["headers"].h
    ensures "headers" !in fetchOptions || !fetchOptions["headers"].HeaderRecord? ==> h == map[]
  {
    if "headers" in fetchOptions && fetchOptions["headers"].HeaderRecord? then
      fetchOptions["headers"].h
    else
      map[]
  }

  /**
   * `{ 'Content-Type': 'application/json', ...callerHeaders }`: every caller
   * header unchanged, plus the default content type unless the caller gave
   * that exact name; nothing else.
   */
  function MergeHeaders(caller: map<string, string>): (h: map<string, string>)
    ensures h.Keys == caller.Keys + {ContentTypeHeader}
    ensures forall k :: k in caller ==> h[k] == caller[k]
    ensures ContentTypeHeader !in caller ==> h[ContentTypeHeader] == JsonMediaType
  {
    map[ContentTypeHeader := JsonMediaType] + caller
  }

  /** The fields `fetchy` sets itself; every other field of `fetchOptions` passes through. */
  predicate IsManagedField(k: string) {
    k == "method" || k == "headers" || k == "body"
  }

  /**
   * `{ method, ...fetchOptions, headers, body }`: the caller's `method`
   * replaces the generated one, while `headers` and `body` always come last
   * and cannot be replaced.
   */
  function AssembleInit<J>(verb: string, fetchOptions: Init<J>, body: InitValue<J>): (init: Init<J>)
    requires HeadersSpreadable(fetchOptions)
    ensures init.Keys == fetchOptions.Keys + {"method", "headers", "body"}
    ensures init["method"] == (if "method" in fetchOptions then fetchOptions["method"] else Str(verb))
    ensures init["headers"] == HeaderRecord(MergeHeaders(CallerHeaders(fetchOptions)))
    ensures init["body"] == body
    ensures forall k :: k in fetchOptions && !IsManagedField(k) ==> init[k] == fetchOptions[k]
  {
    map["method" := Str(verb)] + fetchOptions
      + map["headers" := HeaderRecord(MergeHeaders(CallerHeaders(fetchOptions))), "body" := body]
  }

  /**
   * The synchronous half of a verb call: the URL and init handed to `fetch`,
   * or the exception thrown before it is called.
   */
  function BuildRequest<J>(pf: Platform<J>, options: FetchyOptions, url: string,
                           payload: Payload<J>, fetchOptions: Init<J>): (r: Result<Request<J>, BuildError>)
    requires HeadersSpreadable(fetchOptions)
    ensures !pf.urlParses(options.base + url) ==> r == Failure(InvalidUrl(options.base + url))
    ensures pf.urlParses(options.base + url) ==>
      (r.Failure? <==> IsGet(options.verb) && payload.Iterable? && !AllPairs(pf, payload.items))
    ensures r.Success? ==> r.value.target.text == options.base + url
    ensures r.Success? ==>
      (r.value.target.search.Some? <==> IsGet(options.verb) && IsQueryPayload(payload))
    ensures r.Success? && IsGet(options.verb) && IsQueryPayload(payload) ==>
      && SearchPairs(pf, payload).Some?
      && r.value.target.search == Some(FormUrlEncoded.Serialize(pf.escape, SearchPairs(pf, payload).value))
    ensures r.Success? ==>
      r.value.init == AssembleInit(JsText.Upper(options.verb), fetchOptions,
                                   if IsGet(options.verb) && IsQueryPayload(payload) then Missing else Body(pf, payload))
  {
    var verb := JsText.Upper(options.verb);
    var text := options.base + url;
    if !pf.urlParses(text) then
      Failure(InvalidUrl(text))
    else if verb == "GET" && IsQueryPayload(payload) then
      match SearchPairs(pf, payload)
      case None => Failure(InvalidSearchInit)
      case Some(pairs) =>
        var search := FormUrlEncoded.Serialize(pf.escape, pairs);
        Success(Request(Target(text, Some(search)), AssembleInit(verb, fetchOptions, Body(pf, Undefined))))
    else
      Success(Request(Target(text, None), AssembleInit(verb, fetchOptions, Body(pf, payload))))
  }

  /** What `fetch`'s response tells the `.then` callback. */
  datatype ResponseSummary = ResponseSummary(ok: bool, statusText: string, contentType: Option<string>)

  /** How the call's promise settles. */
  datatype Outcome =
    | Raw                 // resolves with the `Response` itself
    | ParseJson           // resolves with `response.json()`
    | ParseText           // resolves with `response.text()`
    | Fail(message: string)  // rejects with `new Error(statusText)`
    | ContentTypeMissing  // rejects with the TypeError of `null.includes`

  /**
   * The `.then` callback: a failed status rejects with its status text
   * whatever the settings; otherwise the raw response when auto-parsing is
   * off, else JSON when the content type mentions `json` and text when not.
   */
  function Resolve(autoParse: bool, resp: ResponseSummary): (o: Outcome)
    ensures o.Fail? <==> !resp.ok
    ensures o.Fail? ==> o.message == resp.statusText
    ensures o == Raw <==> resp.ok && !autoParse
    ensures o == ContentTypeMissing <==> resp.ok && autoParse && resp.contentType.None?
    ensures o == ParseJson <==>
      resp.ok && autoParse && resp.contentType.Some? && JsText.Contains(resp.contentType.value, "json")
    ensures o == ParseText <==>
      resp.ok && autoParse && resp.contentType.Some? && !JsText.Contains(resp.contentType.value, "json")
  {
    if resp.ok then
      if !autoParse then
        Raw
      else
        match resp.contentType
        case None => ContentTypeMissing
        case Some(ct) => if JsText.Includes(ct, "json") then ParseJson else ParseText
    else
      Fail(resp.statusText)
  }
}

=== FILE: form_urlencoded.dfy ===
/**
 * The application/x-www-form-urlencoded serializer of section 5.2 of the
 * WHATWG URL Standard, which `URLSearchParams.prototype.toString` applies:
 * each name/value pair becomes `name=value`, the pairs are joined by `&`,
 * and every name and value first goes through the byte serializer, which is
 * left abstract as `escape`.
 */
module FormUrlEncoded {

  type Pair = (string, string)

  /** Concatenates `parts` with `sep` between neighbours; no parts give the empty text. */
  function Join(parts: seq<string>, sep: char): string
  {
    if |parts| == 0 then ""
    else if |parts| == 1 then parts[0]
    else parts[0] + [sep] + Join(parts[1..], sep)
  }

  /** Cuts `s` at every `sep`; the pieces joined back by `sep` give `s` again. */
  function SplitOn(s: string, sep: char): (parts: seq<string>)
    ensures |parts| >= 1
    ensures forall i :: 0 <= i < |parts| ==> sep !in parts[i]
    ensures Join(parts, sep) == s
    decreases |s|
  {
    if |s| == 0 then
      [""]
    else
      var rest := SplitOn(s[1..], sep);
      if s[0] == sep then
        [""] + rest
      else
        var parts := [[s[0]] + rest[0]] + rest[1..];
        assert Join(parts, sep) == [s[0]] + Join(rest, sep) by {
          if |rest| > 1 {
            assert parts[1..] == rest[1..];
          }
        }
        assert s == [s[0]] + s[1..];
        parts
  }

  /** Splitting text that has no separator yields that text alone. */
  lemma SplitOnNone(a: string, sep: char)
    requires sep !in a
    ensures SplitOn(a, sep) == [a]
  {
  }

  /** A separator-free prefix followed by a separator comes off as the first piece. */
  lemma {:induction false} SplitOnFirst(a: string, b: string, sep: char)
    requires sep !in a
    ensures SplitOn(a + [sep] + b, sep) == [a] + SplitOn(b, sep)
    decreases |a|
  {
    var s := a + [sep] + b;
    if |a| == 0 {
      assert s[1..] == b;
    } else {
      assert s[1..] == a[1..] + [sep] + b;
      assert sep !in a[1..] by {
        forall i | 0 <= i < |a[1..]| ensures a[1..][i] != sep {
          assert a[1..][i] == a[i + 1];
        }
      }
      SplitOnFirst(a[1..], b, sep);
      assert [a[0]] + a[1..] == a;
    }
  }

  /** Joining separator-free pieces and splitting the result gives the pieces back. */
  lemma {:induction false} SplitJoin(parts: seq<string>, sep: char)
    requires |parts| >= 1
    requires forall i :: 0 <= i < |parts| ==> sep !in parts[i]
    ensures SplitOn(Join(parts, sep), sep) == parts
    decreases |parts|
  {
    if |parts| == 1 {
      SplitOnNone(parts[0], sep);
    } else {
      SplitJoin(parts[1..], sep);
      SplitOnFirst(parts[0], Join(parts[1..], sep), sep);
      assert [parts[0]] + parts[1..] == parts;
    }
  }

  /** One serialized pair, `name=value`. */
  function Field(escape: string -> string, p: Pair): string {
    escape(p.0) + "=" + escape(p.1)
  }

  /** `URLSearchParams.prototype.toString` over `pairs`, in their order. */
  function Serialize(escape: string -> string, pairs: seq<Pair>): (q: string)
    ensures q == "" <==> |pairs| == 0
  {
    var fields := seq(|pairs|, i requires 0 <= i < |pairs| => Field(escape, pairs[i]));
    assert |pairs| > 0 ==> Join(fields, '&') != "" by {
      if |pairs| > 0 {
        JoinHasFirst(fields, '&');
        assert '=' in fields[0];
      }
    }
    Join(fields, '&')
  }

  /** A non-empty join begins with its first piece. */
  lemma JoinHasFirst(parts: seq<string>, sep: char)
    requires |parts| >= 1
    ensures Join(parts, sep)[..|parts[0]|] == parts[0]
  {
  }

  /** Cuts one field at its first `=` into still-serialized name and value. */
  function SplitField(f: string): Pair {
    var parts := SplitOn(f, '=');
    (parts[0], Join(parts[1..], '='))
  }

  /** The structural inverse of `Serialize`: the serialized names and values, in order. */
  function SplitQuery(q: string): seq<Pair> {
    if q == "" then []
    else
      var fields := SplitOn(q, '&');
      seq(|fields|, i requires 0 <= i < |fields| => SplitField(fields[i]))
  }

  /** A byte serializer that, as section 5.2 requires, percent-encodes `&` and `=`. */
  ghost predicate EscapesDelimiters(escape: string -> string) {
    forall s :: '&' !in escape(s) && '=' !in escape(s)
  }

  /** The pairs after the byte serializer has been applied to both halves. */
  function Escaped(escape: string -> string, pairs: seq<Pair>): seq<Pair> {
    seq(|pairs|, i requires 0 <= i < |pairs| => (escape(pairs[i].0), escape(pairs[i].1)))
  }

  /**
   * The query text carries exactly the given pairs, in order: splitting it at
   * `&` and then at the first `=` recovers every serialized name and value.
   */
  lemma {:induction false} SerializeRoundTrip(escape: string -> string, pairs: seq<Pair>)
    requires EscapesDelimiters(escape)
    ensures SplitQuery(Serialize(escape, pairs)) == Escaped(escape, pairs)
  {
    if |pairs| > 0 {
      var fields := seq(|pairs|, i requires 0 <= i < |pairs| => Field(escape, pairs[i]));
      forall i | 0 <= i < |fields|
        ensures '&' !in fields[i]
        ensures SplitField(fields[i]) == (escape(pairs[i].0), escape(pairs[i].1))
      {
        var n, v := escape(pairs[i].0), escape(pairs[i].1);
        assert '&' !in n && '&' !in v && '=' !in n && '=' !in v;
        assert fields[i] == n + ['='] + v;
        SplitOnFirst(n, v, '=');
        SplitOnNone(v, '=');
        assert SplitOn(fields[i], '=') == [n, v];
      }
      SplitJoin(fields, '&');
    }
  }
}

=== FILE: js_text.dfy ===
/**
 * The two string primitives the client applies itself: `toUpperCase` on the
 * verb name and `includes` on the response content-type.
 */
module JsText {

  predicate IsAsciiLower(c: char) {
    'a' <= c <= 'z'
  }

  predicate IsAsciiUpper(c: char) {
    'A' <= c <= 'Z'
  }

  predicate IsAsciiLetter(c: char) {
    IsAsciiLower(c) || IsAsciiUpper(c)
  }

  function UpperChar(c: char): char {
    if IsAsciiLower(c) then (c as int - 32) as char else c
  }

  function LowerChar(c: char): char {
    if IsAsciiUpper(c) then (c as int + 32) as char else c
  }

  /** Two characters that are the same letter up to ASCII case, or identical. */
  predicate CaseEq(a: char, b: char) {
    LowerChar(a) == LowerChar(b)
  }

  /**
   * `String.prototype.toUpperCase`, restricted to the ASCII letters.
   * The result has the input's length, contains no lower-case letter, agrees
   * with the input letter for letter up to case, and keeps every non-letter.
   */
  function Upper(s: string): (r: string)
    ensures |r| == |s|
    ensures forall i :: 0 <= i < |r| ==> !IsAsciiLower(r[i])
    ensures forall i :: 0 <= i < |s| ==> CaseEq(r[i], s[i])
    ensures forall i :: 0 <= i < |s| && !IsAsciiLetter(s[i]) ==> r[i] == s[i]
  {
    seq(|s|, i requires 0 <= i < |s| => UpperChar(s[i]))
  }

  /** Upper-casing twice is upper-casing once. */
  lemma UpperIdempotent(s: string)
    ensures Upper(Upper(s)) == Upper(s)
  {
  }

  /** Two strings upper-case to the same text exactly when they are equal up to ASCII case. */
  lemma UpperEqIff(s: string, t: string)
    ensures Upper(s) == Upper(t) <==> |s| == |t| && forall i :: 0 <= i < |s| ==> CaseEq(s[i], t[i])
  {
  }

  /** `hay` holds `needle` starting at index `i`. */
  ghost predicate OccursAt(needle: string, hay: string, i: int) {
    0 <= i && i + |needle| <= |hay| && hay[i..i + |needle|] == needle
  }

  /** `needle` is a substring of `hay`. */
  ghost predicate Contains(hay: string, needle: string) {
    exists i :: OccursAt(needle, hay, i)
  }

  /** `String.prototype.includes`: the search starts at each index in turn. */
  function Includes(hay: string, needle: string): (b: bool)
    ensures b <==> Contains(hay, needle)
    decreases |hay|
  {
    if |needle| > |hay| then
      false
    else if hay[..|needle|] == needle then
      assert OccursAt(needle, hay, 0);
      true
    else
      var rest := Includes(hay[1..], needle);
      assert forall i :: OccursAt(needle, hay[1..], i) ==> OccursAt(needle, hay, i + 1);
      assert forall i :: OccursAt(needle, hay, i) && i != 0 ==> OccursAt(needle, hay[1..], i - 1);
      rest
  }

  /** A text lacking the needle's first character does not contain the needle. */
  lemma MissingFirstCharExcludes(hay: string, needle: string)
    requires |needle| > 0 && needle[0] !in hay
    ensures !Contains(hay, needle)
  {
  }
}

=== FILE: wrappers.dfy ===
/** Failure-carrying datatypes shared by the model. */
module Wrappers {

  /** A value that may be absent, standing in for JavaScript's `undefined`/`null`. */
  datatype Option<+T> = None | Some(value: T) {

    /** The carried value, or `default` when there is none. */
    function GetOr(default: T): T
    {
      match this
      case Some(v) => v
      case None => default
    }
  }

  /** Either a successful value or the error that was thrown instead. */
  datatype Result<+R, +E> = Success(value: R) | Failure(error: E)
}
